=== FILE: README.md ===
# Traewelling: webhook scoping, user-deletion cascade, admin status edit

A Dafny model of three pieces of the Traewelling backend. Traewelling is a
check-in platform for train journeys.

- **Webhook API** (`WebhookController`). `index` lists the current user's
  webhooks. When an OAuth client is acting, the list is narrowed to the
  webhooks that client registered. `show` and `destroy` first look the
  webhook up within that scope. `destroy` then asks the `delete` policy and
  deletes by primary key. The outcome is 404, 403, 204 or the webhook.
- **User observer** (`UserObserver`). It increments a lifecycle counter when
  a user is created or deleted. On deletion it runs two bulk deletes:
  notifications addressed to the user, and `StatusLiked` notifications whose
  JSON payload names the user as the liker.
- **Admin status edit** (`StatusEditController::edit`). It validates the form
  and moves the checkin to the first stopovers of the trip at the chosen
  stations. Departure and arrival fall back to the other planned time, and
  distance, points and duration are recomputed. After the first update the
  update event is dispatched. A second, partial update then writes the
  editable fields.

Database tables are sequences of immutable rows. Queries and bulk deletes
are filters (`Tables.Keep`), and `first()` is the earliest match
(`Tables.FirstIndex`, `Tables.First`). The authenticated user id and the
acting client id are parameters, and so is the `delete` policy. The
distance, points and duration calculators are function parameters too, as is
the `StatusVisibility` enum check.

Files: `optional.dfy` (nullable values), `tables.dfy` (filter and first-match
over rows, with their lemmas), `webhooks.dfy`, `user_observer.dfy`,
`status_edit.dfy`.

Three behaviours of the code are easy to misread, and the model follows the code in each:

- A request that does not send a body (null) does not keep the stored body.
  The body is written whenever it differs from the stored one, so a null
  body clears it. The stored body always ends up equal to the submitted one.
- `visibility`, `event_id` and `moderation_notes` are always written. Null
  notes clear the stored notes. Only `lock_visibility` and `hide_body` are
  written only when submitted.
- The 403 message is the fixed text "You are not allowed to delete this
  webhook". It is not a reason produced by the policy.

The model also shows one behaviour of the code that is easy to miss. The
duration calculator is handed the checkin as it was *before* the first
update. PHP builds the attribute array before `update` runs. So submitting
the same edit twice changes the duration again and nothing else
(`StatusEdit.EditAgainOnlyRecomputesDuration`). Without the calculator's
source this is not claimed as a defect.

## Model

| member | source | states |
|---|---|---|
| Webhooks.Index | app/Http/Controllers/API/v1/WebhookController.php:41-50 | a webhook is listed iff it is in the table, owned by the user and, when a client acts, registered by that client; with no client every webhook of the user is listed whatever its client; table order is kept |
| Webhooks.Locate | app/Http/Controllers/API/v1/WebhookController.php:133-142 | a found webhook has the requested id, is owned by the user, carries the acting client's id when one acts, and is a member of `index`'s result; null exactly when no row with that id is in scope |
| Webhooks.LocateFindsInScope | app/Http/Controllers/API/v1/WebhookController.php:136-141 | with unique ids, a webhook in scope is returned by a lookup of its id |
| Webhooks.LocateWithoutClient | app/Http/Controllers/API/v1/WebhookController.php:134-141 | with no acting client, every webhook of the user is found by its id, whichever client registered it |
| Webhooks.LocateOtherUser | app/Http/Controllers/API/v1/WebhookController.php:136-141 | a webhook owned by another user is never found, in any client context |
| Webhooks.LocateOtherClient | app/Http/Controllers/API/v1/WebhookController.php:137-141 | while a client acts, a webhook registered by a different client, or by none, is not found |
| Webhooks.Show | app/Http/Controllers/API/v1/WebhookController.php:82-88 | 404 with a null body exactly when the lookup is null; otherwise 200 with exactly the webhook the scoped lookup returned, so it has that id, belongs to the user and, when a client acts, was registered by it |
| Webhooks.Destroy | app/Http/Controllers/API/v1/WebhookController.php:113-126 | only 204, 403 or 404; 404 exactly when the lookup is null; the table is unchanged unless 204; 403 carries the fixed message and means the policy denied; 204 means the policy allowed, the body is null, and exactly the rows with that id are gone |
| Webhooks.DestroyNotFoundIgnoresPolicy | app/Http/Controllers/API/v1/WebhookController.php:115-118 | on a null lookup the outcome is the same under any two policies (the policy is not consulted): 404, table unchanged |
| Webhooks.DestroyDenied | app/Http/Controllers/API/v1/WebhookController.php:120-124 | a denied destroy of a webhook in scope answers 403 with the message and leaves the table as it was |
| Webhooks.DestroyAllowed | app/Http/Controllers/API/v1/WebhookController.php:120-122 | an allowed destroy of the webhook at position i answers 204 and leaves exactly the table without position i, all other rows in order |
| Webhooks.DestroyedIsGone | app/Http/Controllers/API/v1/WebhookController.php:121-122 | after a 204 no user and no client can find that id any more |
| UserObserver.Increment | app/Observers/UserObserver.php:13 | the named counter goes up by exactly one (an absent counter reads as zero) and every other counter keeps its value |
| UserObserver.Created | app/Observers/UserObserver.php:12-14 | `USER_CREATED` goes up by one, no other counter changes, notifications untouched |
| UserObserver.Deleted | app/Observers/UserObserver.php:16-27 | no surviving notification is addressed to the user or is a `StatusLiked` naming them as liker; a notification survives iff it matches neither; survivors keep their order; `USER_DELETED` goes up by one and no other counter changes |
| UserObserver.DeletedIsOneFilter | app/Observers/UserObserver.php:20-27 | the two bulk deletes in sequence equal one filter by "neither predicate", so survivors are unchanged and in original order |
| UserObserver.DeletedIdempotent | app/Observers/UserObserver.php:20-27 | running `deleted` a second time leaves the notification table as the first run left it |
| UserObserver.DeletedKeepsUnrelated | app/Observers/UserObserver.php:20-27 | a table with nothing referencing the user comes out identical |
| UserObserver.DeletedKeepsOtherNotifiableType | app/Observers/UserObserver.php:20-22 | a row whose `notifiable_id` is the user but whose `notifiable_type` is another class survives, provided it is not a `StatusLiked` naming the user as liker |
| UserObserver.DeletedKeepsLikerOutsideStatusLiked | app/Observers/UserObserver.php:25-27 | a row whose payload names the user as liker but whose type is not `StatusLiked` survives, provided it is not addressed to the user |
| StatusEdit.StatusAt | app/Http/Controllers/Frontend/Admin/StatusEditController.php:65 | the found position holds a status with the requested key; none exactly when no status has it |
| StatusEdit.StationById | app/Http/Controllers/Frontend/Admin/StatusEditController.php:67-68 | the found station is in the table with the requested key; none exactly when no station has it |
| StatusEdit.Violations | app/Http/Controllers/Frontend/Admin/StatusEditController.php:52-63 | a field fails iff its rule fails: negative points, notes longer than 255, a status, station or event id that does not exist, a visibility outside the enum |
| StatusEdit.DeriveCheckin | app/Http/Controllers/Frontend/Admin/StatusEditController.php:70-104 | null exactly when a chosen station has no stopover on the trip; otherwise the checkin points at the first stopovers at the two stations, departure and arrival take the other planned time when null, distance comes from those stopovers, submitted points (0 included) win over recomputed ones, duration is computed from the prior checkin, key and trip are unchanged |
| StatusEdit.BuildPayload | app/Http/Controllers/Frontend/Admin/StatusEditController.php:108-125 | visibility and event id always present; notes present and null unless submitted; body present only when it differs from the stored body; the two flags present only when submitted |
| StatusEdit.ApplyPayload | app/Http/Controllers/Frontend/Admin/StatusEditController.php:127 | every attribute in the payload is written; an absent body or flag keeps its stored value; key and checkin are untouched |
| StatusEdit.UpdateUserFields | app/Http/Controllers/Frontend/Admin/StatusEditController.php:108-127 | afterwards the stored body equals the submitted body whether or not it was in the payload; notes equal the submitted ones (null clears); each flag is the submitted value, `false` included, or the stored one when not submitted; key and checkin untouched |
| StatusEdit.Commit | app/Http/Controllers/Frontend/Admin/StatusEditController.php:127 | the edited status gets exactly the editable fields written over the refreshed status; every other status row, the stations and the events are unchanged |
| StatusEdit.EditStopovers | app/Http/Controllers/Frontend/Admin/StatusEditController.php:70-71 | for valid input, the request fails exactly when a chosen station has no stopover on the trip; otherwise the checkin points at the first stopover of the trip at each chosen station |
| StatusEdit.Edit | app/Http/Controllers/Frontend/Admin/StatusEditController.php:51-131 | rejected exactly when a rule fails, with those fields; accepted input has non-negative points and notes of at most 255; on success only the edited status changes, stations and events are untouched, the status handed to dispatch has the new checkin and the old editable fields, and the stored status is that one with the editable fields written; past validation, the request fails on a missing stopover exactly when the checkin derivation finds none, and otherwise the new checkin is exactly the derived one (station ibnrs, stopovers, times, distance, points, duration) |
| StatusEdit.EditPoints | app/Http/Controllers/Frontend/Admin/StatusEditController.php:99 | stored points are the submitted points when given (an explicit 0 is kept), otherwise the calculator's result on the new distance and times, never the old value |
| StatusEdit.EditTimes | app/Http/Controllers/Frontend/Admin/StatusEditController.php:70-74 | departure is the first origin stopover's planned departure, or its planned arrival if that is null; arrival is the first destination stopover's planned arrival, or its planned departure if that is null |
| StatusEdit.EditEventPrecedesUserFields | app/Http/Controllers/Frontend/Admin/StatusEditController.php:91-127 | at the moment of dispatch (line 106) the status handed to it already has the stored new checkin but still the old body, visibility and notes |
| StatusEdit.DeriveIgnoresPriorPosition | app/Http/Controllers/Frontend/Admin/StatusEditController.php:91-103 | two checkins of the same trip derive the same new checkin except for the duration, which depends on the prior checkin |
| StatusEdit.UpdateUserFieldsAgain | app/Http/Controllers/Frontend/Admin/StatusEditController.php:108-127 | writing the same editable fields twice gives what writing them once gives |
| StatusEdit.EditAgainOnlyRecomputesDuration | app/Http/Controllers/Frontend/Admin/StatusEditController.php:91-127 | submitting an accepted edit a second time succeeds and changes, of the modelled fields, nothing but the duration of the edited checkin |

## Left out

- `renderMain` and `renderEdit`: view rendering, pagination and the `LIKE` user search, with no effect on stored data.
- JSON serialisation by `WebhookResource`: a response body carries the webhook record itself.
- The OAuth client resolution, `auth()->id()` and the internals of the `delete` policy: they are parameters.
- The distance, points and duration calculators: their code is not part of this model, so they are uninterpreted function parameters.
- `StatusUpdateEvent::dispatch` and its listeners: only the status as handed to dispatch is modelled (`Edited.event`). `refresh()` is implied by reading the updated row. The event keeps a reference to that same `$status` object, which the second update at line 127 then changes; what a listener sees after that point, a queued listener that re-reads the row included, is not modelled.
- The redirect and flash message of `edit`: the `Edited` outcome stands for them.
- Laravel's `required` and type rules (`string`, `integer`, `boolean`, enum coercion): request fields arrive typed, and `status_id`, `origin`, `destination` and `visibility` are always present and non-null, whereas the code rejects a missing or null one with a validation error. Enum membership is the `isVisibility` parameter. Length is the number of `char`s in the string.
- Timestamps: the `updated_at` columns Eloquent writes on each update are not modelled, nor is the repeated dispatch of the update event on a second submission.
- A `body` or `event_id` key missing from the form (as opposed to sent as null): these two are read without `??` or `isset`, so PHP raises "Undefined array key" after the checkin update and the event dispatch, leaving a half-applied edit with the status fields unwritten. The model assumes both keys are always submitted; a missing `points`, `moderation_notes`, `lock_visibility` or `hide_body` key behaves exactly like null and is modelled.
- Atomicity of `CacheKey::increment` under concurrent requests, and the lack of a transaction around the two bulk deletes and around the two status updates: this model is sequential.
- UserObserver.Increment: the code of `CacheKey::increment` is not part of this model; it is taken to add one to a counter that starts at zero when absent and is never expired or evicted from the cache.
- The cache key names behind `CacheKey::USER_CREATED` and `CacheKey::USER_DELETED`: they are two distinct constructors.
- Row order of SQL queries without `ORDER BY`: the model uses table order. Uniqueness of primary keys is a lemma precondition (`Webhooks.UniqueIds`) and not part of the table type.
- Type juggling in the JSON path comparison `data->liker->id` (for example a string id against an integer): the liker id is an integer or null.
- database/seeders/DatabaseSeeder.php: fixture wiring with no logic.

=== FILE: optional.dfy ===
/** A nullable value: `None` stands for PHP's `null`. */
module Optional {

  datatype Option<+T> = None | Some(value: T) {

    /** PHP's `$this ?? default` when the default is not nullable. */
    function GetOr(default: T): (r: T)
      ensures Some? ==> r == value
      ensures None? ==> r == default
    {
      match this
      case Some(v) => v
      case None => default
    }

    /** PHP's `$this ?? $other` when both sides are nullable. */
    function OrElse(other: Option<T>): (r: Option<T>)
      ensures Some? ==> r == this
      ensures None? ==> r == other
    {
      if Some? then this else other
    }
  }
}

=== FILE: status_edit.dfy ===
/**
 * The admin status editor's `edit` action
 * (app/Http/Controllers/Frontend/Admin/StatusEditController.php): validate
 * the form, move the checkin to the chosen origin and destination stopovers,
 * recompute the derived checkin fields, then write the editable status
 * fields as a partial update.
 *
 * The distance, points and duration calculators live in other controllers
 * and are parameters here; the enum check on `visibility` is a parameter too.
 */
module StatusEdit {
  import opened Optional
  import Tables

  /** A planned timestamp. */
  type Time = int

  datatype Station = Station(id: nat, ibnr: nat)

  datatype Stopover = Stopover(
    id: nat,
    stationId: nat,
    arrivalPlanned: Option<Time>,
    departurePlanned: Option<Time>)

  /** `category` and `source` are the trip's travel-type and data-source enums. */
  datatype Trip = Trip(id: nat, category: nat, source: nat, stopovers: seq<Stopover>)

  datatype Checkin = Checkin(
    id: nat,
    trip: Trip,
    originIbnr: nat,
    originStopoverId: nat,
    destinationIbnr: nat,
    destinationStopoverId: nat,
    departure: Option<Time>,
    arrival: Option<Time>,
    distance: int,
    points: int,
    duration: int)

  datatype Status = Status(
    id: nat,
    body: Option<string>,
    visibility: int,
    eventId: Option<int>,
    moderationNotes: Option<string>,
    lockVisibility: bool,
    hideBody: bool,
    checkin: Checkin)

  /** The tables `edit` reads or writes. */
  datatype Database = Database(statuses: seq<Status>, stations: seq<Station>, eventIds: set<int>)

  /** The submitted form after framework decoding; `None` is a null field. */
  datatype EditRequest = EditRequest(
    statusId: int,
    origin: int,
    destination: int,
    body: Option<string>,
    visibility: int,
    eventId: Option<int>,
    points: Option<int>,
    moderationNotes: Option<string>,
    lockVisibility: Option<bool>,
    hideBody: Option<bool>)

  /** The external calculators: `LocationController::calculateDistance`,
      `PointsCalculationController::calculatePoints` (distance, travel type,
      departure, arrival, trip source, time of view) and
      `TrainCheckinController::calculateCheckinDuration`. */
  datatype Calculators = Calculators(
    distance: (Trip, Stopover, Stopover) -> int,
    points: (int, nat, Option<Time>, Option<Time>, nat, Option<Time>) -> int,
    duration: Checkin -> int)

  /** Form fields that can fail validation. */
  datatype Field = StatusIdField | OriginField | DestinationField | VisibilityField
                 | EventIdField | PointsField | ModerationNotesField

  const MaxModerationNotesLength := 255

  /** The status update as an attribute map: `visibility`, `eventId` and
      `moderationNotes` are always present; for the others `None` means the
      key is absent. `body` holds the nullable body when present. */
  datatype Payload = Payload(
    visibility: int,
    eventId: Option<int>,
    moderationNotes: Option<string>,
    body: Option<Option<string>>,
    lockVisibility: Option<bool>,
    hideBody: Option<bool>)

  /** How a request ends: a validation failure, the exception raised when a
      chosen station is not on the trip (before anything is written), or the
      edited database together with the status as it was handed to
      `StatusUpdateEvent::dispatch`, before the second update wrote to it. */
  datatype EditOutcome =
    | Invalid(fields: set<Field>)
    | StopoverNotOnTrip
    | Edited(db: Database, event: Status)

  /** Position of the status with this primary key (`Status::find`). */
  function StatusAt(statuses: seq<Status>, id: int): (r: Option<nat>)
    ensures r.Some? ==> r.value < |statuses| && statuses[r.value].id == id
    ensures r.None? <==> forall i :: 0 <= i < |statuses| ==> statuses[i].id != id
  {
    Tables.FirstIndex(statuses, (s: Status) => s.id == id)
  }

  /** The station with this primary key (`Station::find`). */
  function StationById(stations: seq<Station>, id: int): (r: Option<Station>)
    ensures r.Some? ==> r.value in stations && r.value.id == id
    ensures r.None? <==> forall st :: st in stations ==> st.id != id
  {
    Tables.First(stations, (st: Station) => st.id == id)
  }

  /** The validation rules `edit` declares, as the set of fields that fail. */
  function Violations(db: Database, req: EditRequest, isVisibility: int -> bool): (errors: set<Field>)
    ensures PointsField in errors <==> req.points.Some? && req.points.value < 0
    ensures ModerationNotesField in errors <==>
      req.moderationNotes.Some? && |req.moderationNotes.value| > MaxModerationNotesLength
    ensures StatusIdField in errors <==> forall i :: 0 <= i < |db.statuses| ==> db.statuses[i].id != req.statusId
    ensures OriginField in errors <==> forall st :: st in db.stations ==> st.id != req.origin
    ensures DestinationField in errors <==> forall st :: st in db.stations ==> st.id != req.destination
    ensures EventIdField in errors <==> req.eventId.Some? && req.eventId.value !in db.eventIds
    ensures VisibilityField in errors <==> !isVisibility(req.visibility)
  {
    set f | f in AllFields && RuleFails(f, db, req, isVisibility)
  }

  const AllFields: set<Field> := {StatusIdField, OriginField, DestinationField, VisibilityField,
                                  EventIdField, PointsField, ModerationNotesField}

  /** The rule declared for one field fails on this request. */
  predicate RuleFails(f: Field, db: Database, req: EditRequest, isVisibility: int -> bool)
  {
    match f
    case StatusIdField => StatusAt(db.statuses, req.statusId).None?
    case OriginField => StationById(db.stations, req.origin).None?
    case DestinationField => StationById(db.stations, req.destination).None?
    case VisibilityField => !isVisibility(req.visibility)
    case EventIdField => req.eventId.Some? && req.eventId.value !in db.eventIds
    case PointsField => req.points.Some? && req.points.value < 0
    case ModerationNotesField =>
      req.moderationNotes.Some? && |req.moderationNotes.value| > MaxModerationNotesLength
  }

  /** `k` is the first stopover of the trip at the station. */
  predicate FirstAtStation(stopovers: seq<Stopover>, stationId: int, k: nat)
  {
    k < |stopovers| && stopovers[k].stationId == stationId
    && forall j :: 0 <= j < k ==> stopovers[j].stationId != stationId
  }

  /** The first `update`: the checkin moved to the first stopovers at the
      chosen stations, with times, distance, points and duration recomputed.
      The duration calculator is handed the checkin as it was before this
      update, because the attribute array is built before it is written. */
  function DeriveCheckin(checkin: Checkin, origin: Station, destination: Station,
                         points: Option<int>, calculators: Calculators): (r: Option<Checkin>)
    ensures r.None? <==>
      (forall k :: 0 <= k < |checkin.trip.stopovers| ==> checkin.trip.stopovers[k].stationId != origin.id)
      || (forall k :: 0 <= k < |checkin.trip.stopovers| ==> checkin.trip.stopovers[k].stationId != destination.id)
    ensures r.Some? ==> exists ko: nat, kd: nat ::
      && FirstAtStation(checkin.trip.stopovers, origin.id, ko)
      && FirstAtStation(checkin.trip.stopovers, destination.id, kd)
      && r.value.originStopoverId == checkin.trip.stopovers[ko].id
      && r.value.destinationStopoverId == checkin.trip.stopovers[kd].id
      && r.value.departure == checkin.trip.stopovers[ko].departurePlanned.OrElse(checkin.trip.stopovers[ko].arrivalPlanned)
      && r.value.arrival == checkin.trip.stopovers[kd].arrivalPlanned.OrElse(checkin.trip.stopovers[kd].departurePlanned)
      && r.value.distance == calculators.distance(checkin.trip, checkin.trip.stopovers[ko], checkin.trip.stopovers[kd])
    ensures r.Some? ==> r.value.originIbnr == origin.ibnr && r.value.destinationIbnr == destination.ibnr
    ensures r.Some? && points.Some? ==> r.value.points == points.value
    ensures r.Some? && points.None? ==>
      r.value.points == calculators.points(r.value.distance, checkin.trip.category, r.value.departure,
                                    r.value.arrival, checkin.trip.source, r.value.departure)
    ensures r.Some? ==> r.value.duration == calculators.duration(checkin)
    ensures r.Some? ==> r.value.id == checkin.id && r.value.trip == checkin.trip
  {
    var stopovers := checkin.trip.stopovers;
    var ko := Tables.FirstIndex(stopovers, (s: Stopover) => s.stationId == origin.id);
    var kd := Tables.FirstIndex(stopovers, (s: Stopover) => s.stationId == destination.id);
    if ko.None? || kd.None? then None
    else
      var newOrigin, newDestination := stopovers[ko.value], stopovers[kd.value];
      var departure := newOrigin.departurePlanned.OrElse(newOrigin.arrivalPlanned);
      var arrival := newDestination.arrivalPlanned.OrElse(newDestination.departurePlanned);
      var distance := calculators.distance(checkin.trip, newOrigin, newDestination);
      var computed := calculators.points(distance, checkin.trip.category, departure, arrival,
                                  checkin.trip.source, departure);
      var r := checkin.(
        originIbnr := origin.ibnr,
        originStopoverId := newOrigin.id,
        destinationIbnr := destination.ibnr,
        destinationStopoverId := newDestination.id,
        departure := departure,
        arrival := arrival,
        distance := distance,
        points := points.GetOr(computed),
        duration := calculators.duration(checkin));
      assert FirstAtStation(stopovers, origin.id, ko.value);
      assert FirstAtStation(stopovers, destination.id, kd.value);
      Some(r)
  }

  /** The attributes of the second `update`. */
  function BuildPayload(current: Status, req: EditRequest): (p: Payload)
    ensures p.visibility == req.visibility && p.eventId == req.eventId
    ensures p.moderationNotes == req.moderationNotes
    ensures p.body.Some? <==> current.body != req.body
    ensures p.body.Some? ==> p.body.value == req.body
    ensures p.lockVisibility == req.lockVisibility && p.hideBody == req.hideBody
  {
    Payload(
      req.visibility,
      req.eventId,
      if req.moderationNotes.Some? then req.moderationNotes else None,
      if current.body != req.body then Some(req.body) else None,
      req.lockVisibility,
      req.hideBody)
  }

  /** Eloquent's `update`: every attribute present in the payload is written,
      every other column keeps its value. */
  function ApplyPayload(s: Status, p: Payload): (r: Status)
    ensures r.id == s.id && r.checkin == s.checkin
    ensures p.body.None? ==> r.body == s.body
    ensures p.lockVisibility.None? ==> r.lockVisibility == s.lockVisibility
    ensures p.hideBody.None? ==> r.hideBody == s.hideBody
    ensures p.body.Some? ==> r.body == p.body.value
    ensures p.lockVisibility.Some? ==> r.lockVisibility == p.lockVisibility.value
    ensures p.hideBody.Some? ==> r.hideBody == p.hideBody.value
    ensures r.visibility == p.visibility && r.eventId == p.eventId && r.moderationNotes == p.moderationNotes
  {
    s.(visibility := p.visibility,
       eventId := p.eventId,
       moderationNotes := p.moderationNotes,
       body := if p.body.Some? then p.body.value else s.body,
       lockVisibility := if p.lockVisibility.Some? then p.lockVisibility.value else s.lockVisibility,
       hideBody := if p.hideBody.Some? then p.hideBody.value else s.hideBody)
  }

  /** The second `update` as a whole: the stored body is the submitted one
      even though the payload leaves an unchanged body out; null notes clear
      the stored notes; the two flags change only when submitted (an explicit
      `false` included); the checkin and the key are not touched. */
  function UpdateUserFields(current: Status, req: EditRequest): (r: Status)
    ensures r.body == req.body
    ensures r.visibility == req.visibility && r.eventId == req.eventId
    ensures r.moderationNotes == req.moderationNotes
    ensures r.lockVisibility == req.lockVisibility.GetOr(current.lockVisibility)
    ensures r.hideBody == req.hideBody.GetOr(current.hideBody)
    ensures r.id == current.id && r.checkin == current.checkin
  {
    ApplyPayload(current, BuildPayload(current, req))
  }

  /** The second `update` stored: the status at `i` gets the editable
      fields, every other row and table stays as it was. */
  function Commit(db: Database, i: nat, refreshed: Status, req: EditRequest): (r: Database)
    requires i < |db.statuses|
    ensures |r.statuses| == |db.statuses|
    ensures r.stations == db.stations && r.eventIds == db.eventIds
    ensures forall j :: 0 <= j < |db.statuses| && j != i ==> r.statuses[j] == db.statuses[j]
    ensures r.statuses[i] == UpdateUserFields(refreshed, req)
  {
    db.(statuses := db.statuses[i := UpdateUserFields(refreshed, req)])
  }

  /** `edit`: validate, derive the checkin, dispatch the update event, then
      apply the editable fields; every failure leaves the database as it was. */
  function Edit(db: Database, req: EditRequest, isVisibility: int -> bool, calculators: Calculators): (r: EditOutcome)
    ensures r.Invalid? <==> Violations(db, req, isVisibility) != {}
    ensures r.Invalid? ==> r.fields == Violations(db, req, isVisibility)
    ensures r.Edited? ==> req.points.Some? ==> req.points.value >= 0
    ensures r.Edited? ==> req.moderationNotes.Some? ==> |req.moderationNotes.value| <= MaxModerationNotesLength
    ensures r.Edited? ==>
      var i := StatusAt(db.statuses, req.statusId).value;
      && |r.db.statuses| == |db.statuses|
      && r.db.stations == db.stations && r.db.eventIds == db.eventIds
      && (forall j :: 0 <= j < |db.statuses| && j != i ==> r.db.statuses[j] == db.statuses[j])
      && r.event == db.statuses[i].(checkin := r.event.checkin)
      && r.event.checkin.trip == db.statuses[i].checkin.trip
      && r.db.statuses[i] == UpdateUserFields(r.event, req)
    ensures !r.Invalid? ==>
      var d := DeriveCheckin(db.statuses[StatusAt(db.statuses, req.statusId).value].checkin,
                             StationById(db.stations, req.origin).value,
                             StationById(db.stations, req.destination).value, req.points, calculators);
      && (r.StopoverNotOnTrip? <==> d.None?)
      && (r.Edited? ==> d == Some(r.event.checkin))
  {
    var errors := Violations(db, req, isVisibility);
    var at := StatusAt(db.statuses, req.statusId);
    var origin := StationById(db.stations, req.origin);
    var destination := StationById(db.stations, req.destination);
    if errors != {} || at.None? || origin.None? || destination.None? then Invalid(errors)
    else
      var status := db.statuses[at.value];
      match DeriveCheckin(status.checkin, origin.value, destination.value, req.points, calculators)
      case None => StopoverNotOnTrip
      case Some(checkin) =>
        var refreshed := status.(checkin := checkin);
        Edited(Commit(db, at.value, refreshed, req), refreshed)
  }

  /** The stored points are the submitted ones whenever points were submitted,
      an explicit 0 included, and the recomputed ones otherwise, never the
      previous value. */
  lemma EditPoints(db: Database, req: EditRequest, isVisibility: int -> bool, calculators: Calculators)
    requires Edit(db, req, isVisibility, calculators).Edited?
    ensures var r := Edit(db, req, isVisibility, calculators);
            var c := r.event.checkin;
            var recomputed := calculators.points(c.distance, c.trip.category, c.departure, c.arrival, c.trip.source, c.departure);
            r.db.statuses[StatusAt(db.statuses, req.statusId).value].checkin.points == req.points.GetOr(recomputed)
  {
  }

  /** The checkin moves to the first stopover of the trip at each chosen
      station; the request fails only when a chosen station has none. */
  lemma EditStopovers(db: Database, req: EditRequest, isVisibility: int -> bool, calculators: Calculators)
    requires Violations(db, req, isVisibility) == {}
    ensures var r := Edit(db, req, isVisibility, calculators);
            var stopovers := db.statuses[StatusAt(db.statuses, req.statusId).value].checkin.trip.stopovers;
            && (r.StopoverNotOnTrip? <==>
                 (forall k :: 0 <= k < |stopovers| ==> stopovers[k].stationId != req.origin)
                 || (forall k :: 0 <= k < |stopovers| ==> stopovers[k].stationId != req.destination))
            && (r.Edited? ==>
                 && (exists k: nat :: FirstAtStation(stopovers, req.origin, k)
                                      && r.event.checkin.originStopoverId == stopovers[k].id)
                 && (exists k: nat :: FirstAtStation(stopovers, req.destination, k)
                                      && r.event.checkin.destinationStopoverId == stopovers[k].id))
  {
  }

  /** Departure falls back to the origin's planned arrival and arrival to the
      destination's planned departure, only when the preferred time is null. */
  lemma EditTimes(db: Database, req: EditRequest, isVisibility: int -> bool, calculators: Calculators)
    requires Edit(db, req, isVisibility, calculators).Edited?
    ensures var c := Edit(db, req, isVisibility, calculators).event.checkin;
            exists ko: nat, kd: nat ::
              && FirstAtStation(c.trip.stopovers, req.origin, ko)
              && FirstAtStation(c.trip.stopovers, req.destination, kd)
              && (c.trip.stopovers[ko].departurePlanned.Some? ==> c.departure == c.trip.stopovers[ko].departurePlanned)
              && (c.trip.stopovers[ko].departurePlanned.None? ==> c.departure == c.trip.stopovers[ko].arrivalPlanned)
              && (c.trip.stopovers[kd].arrivalPlanned.Some? ==> c.arrival == c.trip.stopovers[kd].arrivalPlanned)
              && (c.trip.stopovers[kd].arrivalPlanned.None? ==> c.arrival == c.trip.stopovers[kd].departurePlanned)
  {
  }

  /** The status handed to the update event's dispatch has the new checkin
      but the editable fields as they were: the body, visibility and notes
      are written only after the dispatch. */
  lemma EditEventPrecedesUserFields(db: Database, req: EditRequest, isVisibility: int -> bool, calculators: Calculators)
    requires Edit(db, req, isVisibility, calculators).Edited?
    ensures var r := Edit(db, req, isVisibility, calculators);
            var before := db.statuses[StatusAt(db.statuses, req.statusId).value];
            && r.event.body == before.body && r.event.visibility == before.visibility
            && r.event.moderationNotes == before.moderationNotes
            && r.event.checkin == r.db.statuses[StatusAt(db.statuses, req.statusId).value].checkin
  {
  }

  /** Only the key and the trip of the prior checkin enter the derivation,
      plus the whole prior checkin for the duration. */
  lemma DeriveIgnoresPriorPosition(c1: Checkin, c2: Checkin, origin: Station, destination: Station,
                                   points: Option<int>, calculators: Calculators)
    requires c1.id == c2.id && c1.trip == c2.trip
    ensures var d1 := DeriveCheckin(c1, origin, destination, points, calculators);
            DeriveCheckin(c2, origin, destination, points, calculators)
              == if d1.Some? then Some(d1.value.(duration := calculators.duration(c2))) else None
  {
  }

  /** Writing the same editable fields again changes nothing. */
  lemma UpdateUserFieldsAgain(s: Status, req: EditRequest, checkin: Checkin)
    ensures UpdateUserFields(UpdateUserFields(s, req).(checkin := checkin), req)
         == UpdateUserFields(s, req).(checkin := checkin)
  {
  }

  /** Submitting the same form a second time changes, of the modelled
      fields, only the duration: the first run computed it from the checkin
      as it stood before the edit, the second from the edited one. */
  lemma EditAgainOnlyRecomputesDuration(db: Database, req: EditRequest, isVisibility: int -> bool,
                                        calculators: Calculators)
    requires Edit(db, req, isVisibility, calculators).Edited?
    ensures var once := Edit(db, req, isVisibility, calculators).db;
            var i := StatusAt(db.statuses, req.statusId).value;
            var edited := once.statuses[i];
            var again := edited.(checkin := edited.checkin.(duration := calculators.duration(edited.checkin)));
            Edit(once, req, isVisibility, calculators).Edited?
            && Edit(once, req, isVisibility, calculators).db == once.(statuses := once.statuses[i := again])
  {
    var r := Edit(db, req, isVisibility, calculators);
    var once := r.db;
    var i := StatusAt(db.statuses, req.statusId).value;
    var edited := once.statuses[i];
    var again := edited.(checkin := edited.checkin.(duration := calculators.duration(edited.checkin)));
    Tables.FirstIndexAfterUpdate(db.statuses, (s: Status) => s.id == req.statusId, i, edited);
    assert StatusAt(once.statuses, req.statusId) == Some(i);
    assert Violations(once, req, isVisibility) == Violations(db, req, isVisibility) == {};
    var origin := StationById(db.stations, req.origin).value;
    var destination := StationById(db.stations, req.destination).value;
    assert StationById(once.stations, req.origin) == Some(origin);
    assert StationById(once.stations, req.destination) == Some(destination);
    var first := DeriveCheckin(db.statuses[i].checkin, origin, destination, req.points, calculators);
    assert first == Some(r.event.checkin);
    DeriveIgnoresPriorPosition(db.statuses[i].checkin, edited.checkin, origin, destination, req.points, calculators);
    var second := DeriveCheckin(edited.checkin, origin, destination, req.points, calculators);
    assert second == Some(again.checkin);
    UpdateUserFieldsAgain(r.event, req, again.checkin);
    assert UpdateUserFields(edited.(checkin := again.checkin), req) == again;
  }
}

=== FILE: tables.dfy ===
/**
 * Database tables as sequences of rows. A query `where(...)->get()` keeps the
 * rows satisfying a predicate, in table order; a bulk `where(...)->delete()`
 * keeps the rows NOT satisfying it; `first()` picks the earliest match.
 */
module Tables {
  import opened Optional

  /** The rows of `s` satisfying `p`, in their original order. */
  function Keep<T(!new)>(s: seq<T>, p: T -> bool): (r: seq<T>)
    ensures |r| <= |s|
    ensures forall x :: x in r <==> x in s && p(x)
    ensures forall i :: 0 <= i < |r| ==> p(r[i])
  {
    if s == [] then []
    else if p(s[0]) then [s[0]] + Keep(s[1..], p)
    else Keep(s[1..], p)
  }

  /** `a` is obtained from `b` by dropping elements, without reordering. */
  ghost predicate IsSubsequence<T>(a: seq<T>, b: seq<T>)
    decreases |b|
  {
    if a == [] then true
    else if b == [] then false
    else (a[0] == b[0] && IsSubsequence(a[1..], b[1..])) || IsSubsequence(a, b[1..])
  }

  /** Filtering never reorders: the kept rows appear in table order. */
  lemma {:induction false} KeepIsSubsequence<T(!new)>(s: seq<T>, p: T -> bool)
    ensures IsSubsequence(Keep(s, p), s)
  {
    if s != [] {
      KeepIsSubsequence(s[1..], p);
      if p(s[0]) {
        assert Keep(s, p)[1..] == Keep(s[1..], p);
      } else if Keep(s, p) != [] {
        assert Keep(s, p) == Keep(s[1..], p);
      }
    }
  }

  /** Dropping elements twice is dropping elements once. */
  lemma {:induction false} SubsequenceTransitive<T>(a: seq<T>, b: seq<T>, c: seq<T>)
    requires IsSubsequence(a, b) && IsSubsequence(b, c)
    ensures IsSubsequence(a, c)
    decreases |c|
  {
    if a != [] && c != [] {
      assert b != [];
      if b[0] == c[0] && IsSubsequence(b[1..], c[1..]) {
        if a[0] == b[0] && IsSubsequence(a[1..], b[1..]) {
          SubsequenceTransitive(a[1..], b[1..], c[1..]);
        } else {
          SubsequenceTransitive(a, b[1..], c[1..]);
        }
      } else {
        SubsequenceTransitive(a, b, c[1..]);
      }
    }
  }

  /** A filter that every row passes changes nothing. */
  lemma {:induction false} KeepAll<T(!new)>(s: seq<T>, p: T -> bool)
    requires forall i :: 0 <= i < |s| ==> p(s[i])
    ensures Keep(s, p) == s
  {
    if s != [] {
      KeepAll(s[1..], p);
    }
  }

  /** Two filters in a row are one filter by their conjunction. */
  lemma {:induction false} KeepKeep<T(!new)>(s: seq<T>, p: T -> bool, q: T -> bool, pq: T -> bool)
    requires forall x :: pq(x) == (p(x) && q(x))
    ensures Keep(Keep(s, p), q) == Keep(s, pq)
  {
    if s != [] {
      KeepKeep(s[1..], p, q, pq);
      if p(s[0]) {
        assert Keep(s, p)[1..] == Keep(s[1..], p);
      }
    }
  }

  /** When exactly the row at `i` fails the filter, the filter removes just that row. */
  lemma {:induction false} KeepExceptOne<T(!new)>(s: seq<T>, p: T -> bool, i: nat)
    requires i < |s|
    requires !p(s[i])
    requires forall j :: 0 <= j < |s| && j != i ==> p(s[j])
    ensures Keep(s, p) == s[..i] + s[i+1..]
  {
    var tail := s[1..];
    if i == 0 {
      KeepAll(tail, p);
    } else {
      KeepExceptOne(tail, p, i - 1);
      assert tail[..i-1] == s[1..i];
      assert tail[i..] == s[i+1..];
      assert s[..i] == [s[0]] + s[1..i];
    }
  }

  /** The position of the earliest row satisfying `p`, if any. */
  function FirstIndex<T>(s: seq<T>, p: T -> bool): (r: Option<nat>)
    ensures r.Some? ==> r.value < |s| && p(s[r.value])
    ensures r.Some? ==> forall j :: 0 <= j < r.value ==> !p(s[j])
    ensures r.None? <==> forall j :: 0 <= j < |s| ==> !p(s[j])
  {
    if s == [] then None
    else if p(s[0]) then Some(0)
    else match FirstIndex(s[1..], p)
      case None => None
      case Some(k) => Some(k + 1)
  }

  /** Overwriting a row with one the predicate judges alike moves no first match. */
  lemma {:induction false} FirstIndexAfterUpdate<T>(s: seq<T>, p: T -> bool, i: nat, x: T)
    requires i < |s| && p(x) == p(s[i])
    ensures FirstIndex(s[i := x], p) == FirstIndex(s, p)
  {
    if i > 0 {
      assert s[i := x][1..] == s[1..][i - 1 := x];
      FirstIndexAfterUpdate(s[1..], p, i - 1, x);
    } else {
      assert s[i := x][1..] == s[1..];
    }
  }

  /** The earliest row satisfying `p` (the query builder's `first()`), or null. */
  function First<T(!new)>(s: seq<T>, p: T -> bool): (r: Option<T>)
    ensures r.Some? ==> r.value in s && p(r.value)
    ensures r.None? <==> forall x :: x in s ==> !p(x)
  {
    match FirstIndex(s, p)
    case None => None
    case Some(i) => Some(s[i])
  }
}

=== FILE: user_observer.dfy ===
/**
 * The user model observer (app/Observers/UserObserver.php): lifecycle
 * counters on creation and deletion, and the manual cascade that removes a
 * deleted user's notifications, which the database does not cascade because
 * the references are polymorphic or buried in JSON.
 */
module UserObserver {
  import opened Optional
  import Tables

  /** Morph-class name stored in `notifiable_type` for users. */
  const UserClass := "App\\Models\\User"
  /** Class name stored in `type` for "someone liked your status" notifications. */
  const StatusLikedClass := "App\\Notifications\\StatusLiked"

  /** The JSON `data` column: `likerId` is the value at path `liker.id`, or
      `None` when that path is absent or null; `rest` is everything else. */
  datatype Data = Data(likerId: Option<int>, rest: string)

  /** A row of the `notifications` table. */
  datatype Notification = Notification(
    id: string,
    notificationType: string,
    notifiableType: string,
    notifiableId: int,
    data: Data,
    readAt: Option<int>)

  /** The process-wide counters kept through `CacheKey`. */
  datatype CounterKey = UserCreated | UserDeleted | OtherCounter(name: string)

  type Counters = map<CounterKey, int>

  /** The state the observer touches. */
  datatype Store = Store(notifications: seq<Notification>, counters: Counters)

  /** Value of a counter; a counter never incremented reads as zero. */
  function Count(counters: Counters, key: CounterKey): int
  {
    if key in counters then counters[key] else 0
  }

  /** `CacheKey::increment`: one more on `key`, every other counter as it was. */
  function Increment(counters: Counters, key: CounterKey): (r: Counters)
    ensures key in r && Count(r, key) == Count(counters, key) + 1
    ensures forall k :: k != key ==> (k in r <==> k in counters)
    ensures forall k :: k != key && k in counters ==> r[k] == counters[k]
  {
    counters[key := Count(counters, key) + 1]
  }

  /** Selected by the first bulk delete: addressed to the user. */
  predicate AddressedTo(n: Notification, userId: int)
  {
    n.notifiableId == userId && n.notifiableType == UserClass
  }

  /** Selected by the second bulk delete: a `StatusLiked` notification naming
      the user as the liker, whoever received it. */
  predicate LikedBy(n: Notification, userId: int)
  {
    n.notificationType == StatusLikedClass && n.data.likerId == Some(userId)
  }

  /** `created`: counts the new user and touches nothing else. */
  function Created(store: Store, userId: int): (r: Store)
    ensures r.notifications == store.notifications
    ensures Count(r.counters, UserCreated) == Count(store.counters, UserCreated) + 1
    ensures forall k :: k != UserCreated ==> Count(r.counters, k) == Count(store.counters, k)
  {
    Store(store.notifications, Increment(store.counters, UserCreated))
  }

  /** `deleted`: counts the deletion, then runs the two bulk deletes in order. */
  function Deleted(store: Store, userId: int): (r: Store)
    ensures forall n :: n in r.notifications ==> !AddressedTo(n, userId) && !LikedBy(n, userId)
    ensures forall n :: n in r.notifications <==>
      n in store.notifications && !AddressedTo(n, userId) && !LikedBy(n, userId)
    ensures Tables.IsSubsequence(r.notifications, store.notifications)
    ensures Count(r.counters, UserDeleted) == Count(store.counters, UserDeleted) + 1
    ensures forall k :: k != UserDeleted ==> Count(r.counters, k) == Count(store.counters, k)
  {
    var counters := Increment(store.counters, UserDeleted);
    var afterRecipient := Tables.Keep(store.notifications, (n: Notification) => !AddressedTo(n, userId));
    var afterLiker := Tables.Keep(afterRecipient, (n: Notification) => !LikedBy(n, userId));
    Tables.KeepIsSubsequence(store.notifications, (n: Notification) => !AddressedTo(n, userId));
    Tables.KeepIsSubsequence(afterRecipient, (n: Notification) => !LikedBy(n, userId));
    Tables.SubsequenceTransitive(afterLiker, afterRecipient, store.notifications);
    Store(afterLiker, counters)
  }

  /** The survivors of `deleted` are exactly the rows matching neither
      predicate, in their original order: a single filter pass. */
  lemma DeletedIsOneFilter(store: Store, userId: int)
    ensures Deleted(store, userId).notifications
         == Tables.Keep(store.notifications, (n: Notification) => !AddressedTo(n, userId) && !LikedBy(n, userId))
  {
    Tables.KeepKeep(store.notifications,
                    (n: Notification) => !AddressedTo(n, userId),
                    (n: Notification) => !LikedBy(n, userId),
                    (n: Notification) => !AddressedTo(n, userId) && !LikedBy(n, userId));
  }

  /** Running `deleted` again leaves the notifications as the first run left them. */
  lemma DeletedIdempotent(store: Store, userId: int)
    ensures Deleted(Deleted(store, userId), userId).notifications == Deleted(store, userId).notifications
  {
    var once := Deleted(store, userId);
    DeletedIsOneFilter(once, userId);
    Tables.KeepAll(once.notifications, (n: Notification) => !AddressedTo(n, userId) && !LikedBy(n, userId));
  }

  /** A table holding nothing that references the user is left as it is. */
  lemma DeletedKeepsUnrelated(store: Store, userId: int)
    requires forall i :: 0 <= i < |store.notifications| ==>
      !AddressedTo(store.notifications[i], userId) && !LikedBy(store.notifications[i], userId)
    ensures Deleted(store, userId).notifications == store.notifications
  {
    DeletedIsOneFilter(store, userId);
    Tables.KeepAll(store.notifications, (n: Notification) => !AddressedTo(n, userId) && !LikedBy(n, userId));
  }

  /** The first delete is keyed on both columns: a row carrying the user's id
      under another `notifiable_type` survives, unless it is a `StatusLiked`
      naming the user as liker. */
  lemma DeletedKeepsOtherNotifiableType(store: Store, userId: int, n: Notification)
    requires n in store.notifications
    requires n.notifiableId == userId && n.notifiableType != UserClass
    requires !LikedBy(n, userId)
    ensures n in Deleted(store, userId).notifications
  {
  }

  /** The second delete is keyed on the notification type: a liker reference
      to the user inside a non-`StatusLiked` row survives, unless the row is
      addressed to the user. */
  lemma DeletedKeepsLikerOutsideStatusLiked(store: Store, userId: int, n: Notification)
    requires n in store.notifications
    requires n.data.likerId == Some(userId) && n.notificationType != StatusLikedClass
    requires !AddressedTo(n, userId)
    ensures n in Deleted(store, userId).notifications
  {
  }
}

=== FILE: webhooks.dfy ===
/**
 * The webhook API controller: which webhooks the current user and the acting
 * OAuth client may see, and how `show` and `destroy` turn the lookup into a
 * response (app/Http/Controllers/API/v1/WebhookController.php).
 *
 * The authenticated user id and the acting client id are explicit parameters;
 * `None` for the client means Traewelling itself or a personal access token.
 */
module Webhooks {
  import opened Optional
  import Tables

  /** A stored webhook. `url` and `events` are its delivery configuration,
      which this controller never inspects. */
  datatype Webhook = Webhook(id: nat, userId: nat, clientId: Option<nat>, url: string, events: nat)

  /** The response body: the `null` passed to `response()->json`, a serialized
      webhook, or an error message. */
  datatype Body = Null | WebhookBody(webhook: Webhook) | Message(text: string)

  datatype Response = Response(status: nat, body: Body)

  /** The table after a `destroy` request, together with its response. */
  datatype DestroyResult = DestroyResult(response: Response, table: seq<Webhook>)

  const DeleteDeniedMessage := "You are not allowed to delete this webhook"

  /** Primary-key uniqueness of the `webhooks` table. */
  ghost predicate UniqueIds(table: seq<Webhook>)
  {
    forall i, j :: 0 <= i < |table| && 0 <= j < |table| && table[i].id == table[j].id ==> i == j
  }

  /** The query scope: owned by the user and, when a client acts, registered by
      it. A NULL `client_id` never equals a client id in SQL. */
  predicate InScope(w: Webhook, user: nat, client: Option<nat>)
  {
    w.userId == user && (client.None? || w.clientId == Some(client.value))
  }

  /** `index`: every webhook in scope, in table order. */
  function Index(table: seq<Webhook>, user: nat, client: Option<nat>): (r: seq<Webhook>)
    ensures forall w :: w in r <==>
      w in table && w.userId == user && (client.Some? ==> w.clientId == Some(client.value))
    ensures client.None? ==> forall w :: w in table && w.userId == user ==> w in r
    ensures Tables.IsSubsequence(r, table)
  {
    Tables.KeepIsSubsequence(table, (w: Webhook) => InScope(w, user, client));
    Tables.Keep(table, (w: Webhook) => InScope(w, user, client))
  }

  /** `getWebhookForUserAndCurrentClient`: the scoped query narrowed to one id,
      `first()` of it, or null. */
  function Locate(table: seq<Webhook>, user: nat, client: Option<nat>, webhookId: int): (r: Option<Webhook>)
    ensures r.Some? ==> r.value.id == webhookId && r.value in Index(table, user, client)
    ensures r.Some? ==> r.value in table && r.value.userId == user
    ensures r.Some? && client.Some? ==> r.value.clientId == client
    ensures r.None? <==> forall w :: w in table && w.id == webhookId ==> !InScope(w, user, client)
  {
    Tables.First(Index(table, user, client), (w: Webhook) => w.id == webhookId)
  }

  /** `show`: 404 with a null body when the lookup is null, else the webhook. */
  function Show(table: seq<Webhook>, user: nat, client: Option<nat>, webhookId: int): (r: Response)
    ensures r.status == 404 <==> Locate(table, user, client, webhookId).None?
    ensures r.status == 404 ==> r.body == Null
    ensures r.status != 404 ==> r.status == 200 && r.body.WebhookBody?
    ensures r.body.WebhookBody? ==> r.body.webhook.id == webhookId && r.body.webhook.userId == user
    ensures r.body.WebhookBody? ==> r.body.webhook in table
    ensures r.body.WebhookBody? ==> Locate(table, user, client, webhookId) == Some(r.body.webhook)
  {
    match Locate(table, user, client, webhookId)
    case None => Response(404, Null)
    case Some(w) => Response(200, WebhookBody(w))
  }

  /** `destroy`: lookup, then the `delete` policy, then deletion by primary key. */
  function Destroy(table: seq<Webhook>, user: nat, client: Option<nat>, webhookId: int,
                   mayDelete: (nat, Webhook) -> bool): (r: DestroyResult)
    ensures r.response.status in {204, 403, 404}
    ensures r.response.status == 404 <==> Locate(table, user, client, webhookId).None?
    ensures r.response.status != 204 ==> r.table == table
    ensures r.response.status == 403 ==>
      r.response.body == Message(DeleteDeniedMessage)
      && !mayDelete(user, Locate(table, user, client, webhookId).value)
    ensures r.response.status == 204 ==>
      r.response.body == Null
      && mayDelete(user, Locate(table, user, client, webhookId).value)
      && (forall w :: w in r.table <==> w in table && w.id != webhookId)
  {
    match Locate(table, user, client, webhookId)
    case None => DestroyResult(Response(404, Null), table)
    case Some(w) =>
      if !mayDelete(user, w) then DestroyResult(Response(403, Message(DeleteDeniedMessage)), table)
      else DestroyResult(Response(204, Null), Tables.Keep(table, (x: Webhook) => x.id != w.id))
  }

  /** A webhook in scope is found by its id. */
  lemma LocateFindsInScope(table: seq<Webhook>, user: nat, client: Option<nat>, i: nat)
    requires UniqueIds(table)
    requires i < |table| && InScope(table[i], user, client)
    ensures Locate(table, user, client, table[i].id) == Some(table[i])
  {
  }

  /** With no acting client the user sees each of their webhooks, whichever
      client registered it. */
  lemma LocateWithoutClient(table: seq<Webhook>, user: nat, i: nat)
    requires UniqueIds(table)
    requires i < |table| && table[i].userId == user
    ensures Locate(table, user, None, table[i].id) == Some(table[i])
  {
  }

  /** Another user's webhook is not found, whatever the client context. */
  lemma LocateOtherUser(table: seq<Webhook>, user: nat, client: Option<nat>, i: nat)
    requires UniqueIds(table)
    requires i < |table| && table[i].userId != user
    ensures Locate(table, user, client, table[i].id) == None
  {
  }

  /** A webhook registered by another client (or by none) is not found while
      a client acts. */
  lemma LocateOtherClient(table: seq<Webhook>, user: nat, client: nat, i: nat)
    requires UniqueIds(table)
    requires i < |table| && table[i].clientId != Some(client)
    ensures Locate(table, user, Some(client), table[i].id) == None
  {
  }

  /** `destroy` never consults the policy when the lookup is null: the result
      is the same under any two policies, a 404 with the table untouched. */
  lemma DestroyNotFoundIgnoresPolicy(table: seq<Webhook>, user: nat, client: Option<nat>, webhookId: int,
                                     policy1: (nat, Webhook) -> bool, policy2: (nat, Webhook) -> bool)
    requires Locate(table, user, client, webhookId).None?
    ensures Destroy(table, user, client, webhookId, policy1) == Destroy(table, user, client, webhookId, policy2)
    ensures Destroy(table, user, client, webhookId, policy1) == DestroyResult(Response(404, Null), table)
  {
  }

  /** A denied `destroy` of a webhook in scope answers 403 and changes nothing. */
  lemma DestroyDenied(table: seq<Webhook>, user: nat, client: Option<nat>, i: nat,
                      mayDelete: (nat, Webhook) -> bool)
    requires UniqueIds(table)
    requires i < |table| && InScope(table[i], user, client)
    requires !mayDelete(user, table[i])
    ensures Destroy(table, user, client, table[i].id, mayDelete)
         == DestroyResult(Response(403, Message(DeleteDeniedMessage)), table)
  {
  }

  /** An allowed `destroy` removes exactly that webhook, keeps every other row
      in place and answers 204 with a null body. */
  lemma DestroyAllowed(table: seq<Webhook>, user: nat, client: Option<nat>, i: nat,
                       mayDelete: (nat, Webhook) -> bool)
    requires UniqueIds(table)
    requires i < |table| && InScope(table[i], user, client)
    requires mayDelete(user, table[i])
    ensures Destroy(table, user, client, table[i].id, mayDelete)
         == DestroyResult(Response(204, Null), table[..i] + table[i+1..])
  {
    LocateFindsInScope(table, user, client, i);
    var id := table[i].id;
    Tables.KeepExceptOne(table, (x: Webhook) => x.id != id, i);
  }

  /** After an allowed `destroy` the webhook can no longer be found, by anyone. */
  lemma DestroyedIsGone(table: seq<Webhook>, user: nat, client: Option<nat>, webhookId: int,
                        mayDelete: (nat, Webhook) -> bool, user': nat, client': Option<nat>)
    requires Destroy(table, user, client, webhookId, mayDelete).response.status == 204
    ensures Locate(Destroy(table, user, client, webhookId, mayDelete).table, user', client', webhookId).None?
  {
  }
}
